=== FILE: README.md ===
# Countries and cities CRUD services, modelled in Dafny

The repository has two small hand-written REST services. Each one keeps a single
SQLite table with an AUTOINCREMENT `id` and a UNIQUE `nombre`:

- the countries service `api-fastapi-paises/main.py` (Python `http.server`,
  table `paises(id, nombre, dirigente)`);
- the cities service `api-express-ciudades/src/index.ts` (Express, table
  `ciudades(id, nombre, poblacion)`).

This project models each service's request handling as a pure function
`Handle(request, table) -> (response, table after)`. A response is a status code
and a body value. The table is modelled as an immutable value.

Files and modules:

- `wrappers.dfy`, module `Wrappers`: `Option` and `Result`.
- `store.dfy`, module `Store`: the table and the SQL statements the services run.
  - The table is `map<int, Row>` plus the AUTOINCREMENT counter `nextId`.
  - `nextId` is one more than the `sqlite_sequence` entry.
  - Statements: INSERT, UPDATE by id, DELETE by id, SELECT ... ORDER BY id.
  - The invariant `Valid`: every id lies in `[1, nextId)`, `nextId` is at most
    2^63 (so the `sqlite_sequence` value `nextId - 1` fits a 64-bit rowid), and
    names are pairwise distinct.
- `pystr.dfy`, module `PyStr`: the Python built-ins the countries handler applies
  to the path (`str.count`, `str.split('/')[-1]` and `int()`), and `str()` of an
  int, which is how a client spells an id in a path.
- `countries.dfy`, module `Countries`: do_GET, do_POST, do_PUT, do_DELETE and
  do_OPTIONS, including routing on the raw path string.
- `countries_laws.dfy`, module `CountriesLaws`: properties that span several
  requests.
- `cities.dfy`, module `Cities`: the five Express route handlers.
- `cities_laws.dfy`, module `CitiesLaws`: properties that span several requests.

Behaviour worth knowing, as the code has it:

- Countries, item routes (`/api/paises/<seg>` with exactly three `/`). When
  `int()` rejects the last segment, GET, PUT and DELETE answer 500. This
  includes the empty segment of `/api/paises/`. PUT parses the id before it
  validates the body.
- Countries, id width. Python ints are unbounded, but sqlite3 cannot bind an id
  outside the signed 64-bit range and raises OverflowError. The generic handler
  turns that into 500. PUT validates the body first, so an over-wide id with a
  missing field gives 400, as long as `int()` accepts the id at all.
- Countries, id length. CPython (3.11 on, and the security releases before it) refuses to convert a decimal string of
  more than 4300 digits, so `int()` raises ValueError on such a segment. GET,
  PUT and DELETE then answer 500, PUT even with a missing field.
- Countries, duplicate names. A POST with a taken `nombre` gives 400 "El país ya
  existe". A PUT that renames a row to another row's `nombre` raises
  IntegrityError inside the generic `except Exception` and gives 500. The cities
  service answers 400 "La ciudad ya existe" in both cases.
- Cities, validation. `!nombre || !poblacion` treats 0 as missing, so a city with
  population 0 is refused with 400. A negative population passes.
- Both services, AUTOINCREMENT. Ids are never reused after a delete. SQLite
  allocates the new rowid before it checks constraints. So once the counter has
  reached 2^63 - 1, every INSERT fails with SQLITE_FULL, even for a duplicate
  name. Countries answers that with 500. Cities answers 500 "Error al crear
  ciudad", because the message does not contain "UNIQUE".

## Model

| member | source | states |
|---|---|---|
| Store.Insert | api-fastapi-paises/main.py:31-37 | INSERT under AUTOINCREMENT and UNIQUE(nombre). It fails with SQLITE_FULL exactly when the counter is exhausted. It fails with UNIQUE exactly when the counter is not exhausted and the name is taken. On success the new id is at least the old counter and below the new one. On a valid table a success also puts the new id in [1, 2^63-1] and above every existing id, adds exactly that row while keeping every other row, and preserves `Valid`. |
| Store.Update | api-fastapi-paises/main.py:183-186 | UPDATE ... WHERE id. It changes 0 rows (table untouched) exactly when the id is absent, and 1 row when present. It fails with UNIQUE exactly when the id is present and a different row holds the new name. When it changes the present row, the key set and counter are kept and only that row is replaced. `Valid` is preserved. |
| Store.Delete | api-fastapi-paises/main.py:212-214 | DELETE ... WHERE id. The row count is 1 exactly when the id was present. The id is gone and every other row is kept. The counter is unchanged, so ids are not reused. `Valid` is preserved. |
| Store.Scan | api-fastapi-paises/main.py:80 | The ids walked by ORDER BY id: strictly ascending, all present in the table, and every id of the table in the range is among them. |
| Store.SelectAll | api-express-ciudades/src/index.ts:48 | SELECT * ORDER BY id: each entry is a stored row under its id, ids strictly ascend, and on a valid table every row appears. |
| Store.Empty | api-fastapi-paises/main.py:31-37 | A freshly created table is empty and satisfies the invariant. |
| Store.ServeKeeps | api-fastapi-paises/main.py:31-37 | If one request keeps a table property (such as the invariant, or filled fields), every sequence of requests keeps it. |
| Store.ServeCounterGrows | api-fastapi-paises/main.py:33 | If one request never lowers the AUTOINCREMENT counter, no sequence of requests lowers it. |
| PyStr.Count | api-fastapi-paises/main.py:93 | `path.count('/')` is at most the length, and is 0 exactly when `/` does not occur. |
| PyStr.CountOccurrences | api-fastapi-paises/main.py:93 | `path.count('/')` is the number of occurrences of `/`: its multiplicity in the multiset of the path's characters. |
| PyStr.CountConcat | api-fastapi-paises/main.py:93 | The count of a concatenation is the sum of the counts. |
| PyStr.LastSegment | api-fastapi-paises/main.py:95 | `split('/')[-1]` contains no `/`, is a suffix of the path, and is preceded by `/` whenever it is shorter than the path. |
| PyStr.LastSegmentAfterSlash | api-fastapi-paises/main.py:95 | After a prefix ending in `/`, a slash-free remainder is exactly the last segment. |
| PyStr.ParseInt | api-fastapi-paises/main.py:95 | `int()` accepts only sign, digit and underscore characters and never the empty string. It accepts exactly when the text after an optional sign is a numeral (digits, single `_` between digits) of at most 4300 digits, CPython's default conversion limit. The value is non-negative without a `-` and non-positive with one. |
| PyStr.DigitsValue | api-fastapi-paises/main.py:95 | Underscores in a numeral do not change the number `int()` reads: with them removed the digits read as the same value. |
| PyStr.ShowNumeralValue | api-fastapi-paises/main.py:95 | Reading a digit string and spelling the number again gives the digits with leading zeros removed (a single `0` for an all-zero string). |
| PyStr.ParseIntValue | api-fastapi-paises/main.py:95 | Whenever `int(s)` succeeds, the magnitude of its value is spelled by the unsigned text with underscores and leading zeros removed. With the sign clauses of `ParseInt` this fixes the value: `int('007') == 7`, `int('1_0') == 10`, `int('-0') == 0`. |
| PyStr.ShowNatValue | api-fastapi-paises/main.py:95 | The decimal spelling of a natural is a numeral that reads back as the same number. |
| PyStr.ParseShowInt | api-fastapi-paises/main.py:95 | `int(str(n)) == n` for every integer n whose decimal spelling is within the 4300-digit limit. |
| PyStr.ShowNatLength | api-fastapi-paises/main.py:95 | A natural below 10^k is spelled with at most k digits. |
| Countries.Classify | api-fastapi-paises/main.py:67-93 | Root exactly for `/` or ``, list exactly for `/api/paises`, item exactly for the startswith-and-three-slashes test. The item segment is the last segment, which is everything after `/api/paises/`. |
| Countries.ItemSegment | api-fastapi-paises/main.py:93-95 | On an item path, `split('/')[-1]` is the text after the prefix. |
| Countries.ItemPathRoutes | api-fastapi-paises/main.py:93-95 | For every id within the digit limit, `/api/paises/<str(id)>` is an item route whose last segment is `str(id)` and reads back through `int()` as `id`. |
| Countries.Int64StrFits | api-fastapi-paises/main.py:95 | Every id that fits a signed 64-bit integer (every id SQLite can store) is within the digit limit, so the round trip holds for every stored id. |
| Countries.ParseJsonBody | api-fastapi-paises/main.py:50-55 | A body that does not decode as JSON reads as the empty object `{}`. A body that decodes is taken as decoded. |
| Countries.ListPaises | api-fastapi-paises/main.py:76-90 | On a valid table the list holds every row once, in ascending id order, each with its stored nombre and dirigente. |
| Countries.DoGet | api-fastapi-paises/main.py:64-116 | Banner for `/` or ``. For `/api/paises`, 200 with a list that, on a valid table, is the full table in id order. Generic 404 page exactly for paths matching no route. On item routes: 500 when `int()` fails or the id exceeds 64 bits, 200 with the stored row when present, 404 "País no encontrado" when absent. |
| Countries.DoPost | api-fastapi-paises/main.py:118-159 | 404 off `/api/paises`. 500 for a non-object JSON body. 400 "nombre y dirigente son requeridos" when a field is missing or empty (a malformed body reads as `{}`). 400 "El país ya existe" for a taken name. 500 when the counter is exhausted. 201 exactly when all checks pass: the response echoes the fields and the new id, the new table is the old one with that row stored at the id, and the id is at least the AUTOINCREMENT counter. On a valid table the id is also absent and above every existing id, so exactly that row is added. Every non-201 leaves the table unchanged. The invariant and filled fields are preserved. |
| Countries.DoPut | api-fastapi-paises/main.py:161-203 | 404 off item routes. 500 for a bad id before any body check. 400 for missing fields. 500 for an over-wide id. 404 "País no encontrado" for an absent id, with no insert. 500 when renaming onto another row's name. Otherwise 200 with the new fields, the same id and key set, and only that row replaced. A JSON body that is not an object gives 500 once the id has parsed. The counter never changes; the invariant and filled fields are preserved. |
| Countries.UpdatePais | api-fastapi-paises/main.py:181-200 | The UPDATE step of do_PUT: 500 for an id that does not bind as 64 bits, 404 "País no encontrado" for an absent id, 500 when the new name is another row's, otherwise 200 with only that row replaced. Any non-200 leaves the table unchanged; the counter never changes; the invariant is kept, and so are filled fields when the new ones are non-empty. |
| Countries.DoDelete | api-fastapi-paises/main.py:205-231 | 404 off item routes. 500 for a bad or over-wide id. 404 "País no encontrado" for an absent id. Otherwise 200 `{mensaje, id}`: only that row is removed and the counter is kept. The invariant and filled fields are preserved. |
| Countries.Handle | api-fastapi-paises/main.py:61-239 | Status is one of 200, 201, 400, 404, 500. Any non-2xx, any GET and any OPTIONS leave the table unchanged. OPTIONS is 200 with no body. The counter never decreases, `Valid` is preserved, and so is `RowsFilled`: every row keeps a non-empty nombre and dirigente. |
| CountriesLaws.CreateThenRead | api-fastapi-paises/main.py:137-149 | After a 201 POST, GET of `/api/paises/<id>` returns 200 with the same record. |
| CountriesLaws.DeleteThenReadAndDelete | api-fastapi-paises/main.py:212-226 | Deleting a present id gives 200 `{mensaje, id}` and removes only it. A following GET gives 404, and a second DELETE gives 404 and changes nothing. |
| CountriesLaws.UpdateThenRead | api-fastapi-paises/main.py:183-198 | A valid PUT on a present id gives 200 with the new fields. The row count is unchanged, and a following GET returns the same record. |
| CountriesLaws.UpdateAbsentInsertsNothing | api-fastapi-paises/main.py:183-191 | A valid PUT on an absent id gives 404 and leaves the table as it was. |
| CountriesLaws.UnparsedIdIsServerError | api-fastapi-paises/main.py:161-201 | On an item path whose last segment `int()` rejects, GET, PUT and DELETE give 500 with any body and leave the table unchanged. |
| CountriesLaws.SameIdSameAnswer | api-fastapi-paises/main.py:93-95 | GET, PUT and DELETE route on the id `int()` reads from the last segment: two item paths whose segments read as the same id (`/api/paises/007` and `/api/paises/7`) get identical answers and identical tables. |
| CountriesLaws.BarePrefixRoute | api-fastapi-paises/main.py:93-95 | `/api/paises/` passes the item-route test and its empty last segment is rejected by `int()`. |
| CountriesLaws.EmptySegmentIsServerError | api-fastapi-paises/main.py:93-113 | GET, PUT and DELETE of `/api/paises/` give 500 (not 404) with any body, and leave the table unchanged. |
| CountriesLaws.MalformedPostRejected | api-fastapi-paises/main.py:124-135 | A POST body that is not JSON reads as `{}` and gives 400 "nombre y dirigente son requeridos" with the table unchanged. |
| CountriesLaws.NoIdReuse | api-fastapi-paises/main.py:31-37 | After a delete of an id and any sequence of later requests, a successful POST assigns a strictly larger id. |
| CountriesLaws.ServeFromEmpty | api-fastapi-paises/main.py:26-37 | Starting from the freshly created table, every sequence of requests leaves ids below the counter, names pairwise distinct, and every row with a non-empty nombre and dirigente. |
| Cities.ListCiudades | api-express-ciudades/src/index.ts:47-55 | On a valid table the list holds every row once, in ascending id order, each with its stored nombre and poblacion. |
| Cities.GetById | api-express-ciudades/src/index.ts:61-72 | 200 with the stored row exactly when the id is present. Otherwise 404 "Ciudad no encontrada". |
| Cities.Post | api-express-ciudades/src/index.ts:79-103 | 400 "nombre y poblacion son requeridos" for a missing or falsy field (including poblacion 0). 400 "La ciudad ya existe" for a taken name. 500 "Error al crear ciudad" when the counter is exhausted. 201 exactly when all checks pass: the fields are echoed with an id that is at least the AUTOINCREMENT counter, and the new table is the old one with that row stored at the id. On a valid table the id is also absent and above every existing id, so exactly that row is added. Every non-201 leaves the table unchanged. The invariant and filled fields are preserved. |
| Cities.Put | api-express-ciudades/src/index.ts:110-137 | 400 for falsy fields with no write. 404 for an absent id with no insert. 400 "La ciudad ya existe" when renaming onto another row's name, table unchanged. Otherwise 200 with the new fields, the same id and key set, and only that row replaced. The counter never changes; the invariant and filled fields are preserved. |
| Cities.DeleteById | api-express-ciudades/src/index.ts:143-155 | 200 `{mensaje, id}` exactly when the id is present; only that row is removed and the counter is kept. Otherwise 404 with the table unchanged. The invariant and filled fields are preserved. |
| Cities.Handle | api-express-ciudades/src/index.ts:47-155 | Status is one of 200, 201, 400, 404, 500. Any non-2xx and every GET leave the table unchanged. On a valid table the list is the full table in id order. The counter never decreases, `Valid` is preserved, and so is `RowsFilled`: every row keeps a non-empty nombre and a non-zero poblacion. |
| CitiesLaws.CreateThenRead | api-express-ciudades/src/index.ts:88-100 | After a 201 POST, GET of the returned id gives 200 with the same record. |
| CitiesLaws.ZeroPopulationRejected | api-express-ciudades/src/index.ts:83-86 | POST or PUT with `poblacion` 0 gives 400 and writes nothing. |
| CitiesLaws.DeleteThenReadAndDelete | api-express-ciudades/src/index.ts:143-155 | Deleting a present id gives 200. A following GET gives 404, and a second DELETE gives 404 and changes nothing. |
| CitiesLaws.UpdateThenRead | api-express-ciudades/src/index.ts:120-134 | A 200 PUT implies the id was present and keeps the row count. A following GET returns the same record. |
| CitiesLaws.RenameCollision | api-express-ciudades/src/index.ts:124-126 | Renaming a city to another city's name gives 400 "La ciudad ya existe" and leaves the table unchanged. |
| CitiesLaws.NoIdReuse | api-express-ciudades/src/index.ts:31-36 | After a delete of an id and any sequence of later requests, a successful POST assigns a strictly larger id. |
| CitiesLaws.ServeFromEmpty | api-express-ciudades/src/index.ts:30-41 | Starting from the freshly created table, every sequence of requests leaves ids below the counter, names pairwise distinct, and every row with a non-empty nombre and a non-zero poblacion. |

## Left out

- HTTP plumbing is not modelled. This covers header writing, Content-Length reading, `serve_forever`, log silencing, startup prints and `app.listen`. Responses are (status, body) values.
- CORS headers and the `end_headers` override are not modelled. OPTIONS is modelled only as "200, no body".
- Countries request-line parsing by `http.server` happens before any handler runs (current CPython, for example, collapses a leading `//`). The model starts from `self.path` as the handler receives it.
- Methods the countries handler does not define (HEAD, PATCH, ...) are not modelled. `http.server` answers those with 501 on its own.
- The error page that `send_error` writes is not modelled. It is the single body value `ErrorPage`.
- Store I/O failures are not modelled: a database that cannot be opened, a locked database, disk errors. These are the generic 500 branches, and nothing in the request decides them. The store failures that the request and table do decide are modelled: the UNIQUE violation, the exhausted AUTOINCREMENT counter, and the 64-bit binding overflow. One more failure is decided by the request: a string that cannot be encoded for binding. It is not modelled (next lines).
- Connection open/close, commits and the SQL text are not modelled. Each statement is one function over the table.
- Countries `int()`: the model accepts an optional sign and at most 4300 ASCII digits, with single underscores between digits. Python also strips surrounding whitespace and accepts other Unicode decimal digits. Neither can occur here: `http.server` splits the request line on whitespace and decodes it as Latin-1, which has no decimal digits beyond 0-9.
- PyStr.ParseInt: the 4300-digit limit is CPython's default from 3.11 on (and from the 3.7.14, 3.8.14, 3.9.14 and 3.10.7 security releases). Earlier interpreters have no limit, and the limit can be changed through PYTHONINTMAXSTRDIGITS or `sys.set_int_max_str_digits`. Neither variant is modelled.
- Countries JSON bodies: only string-valued members of an object are modelled. A non-string `nombre` such as a number is not. Any non-object JSON value is one case, which gives 500 through `data.get`.
- Countries bodies with an unpaired surrogate are not modelled. A JSON string such as `"\ud800"` decodes to a Python str holding an unpaired surrogate. It passes the `not nombre` check, but sqlite3 cannot encode it to UTF-8 for binding and raises UnicodeEncodeError. POST (main.py:138-156) and PUT on a present id (main.py:183-200) therefore answer 500. A Dafny `string` holds only Unicode scalar values, so such a value cannot be written in this model.
- Countries, the `Content-Length` header: a non-numeric header makes `int()` raise and gives 500. This is not modelled.
- Cities ids: the id is taken as an already-parsed integer. `parseInt` prefix parsing, NaN ids, and precision loss above 2^53 are not modelled.
- Cities bodies: `nombre` and `poblacion` are modelled as optional string and optional integer. Values of other JSON types are not modelled. In particular a fractional population such as `1.5` passes the `!poblacion` check (index.ts:83 and :115), SQLite stores it as a REAL in the INTEGER column, and POST answers 201 with `poblacion` 1.5 (PUT likewise updates the row). `Option<int>` cannot hold that value, so these requests are outside the model.
- Cities: a body that body-parser cannot decode is not modelled. body-parser rejects it before the handler runs.
- Cities: the list query's error branch ("Error al obtener ciudades") is not modelled. It is a store I/O failure.
- Cities: the error branches of GET by id, DELETE, and the non-UNIQUE branch of PUT ("Error al actualizar ciudad") are not modelled. They are store I/O failures too.
- The NestJS users service, the frontend code and the archived `app.py` are not part of this model.
- Store.SelectAll: the promise that every row appears is stated only for tables satisfying `Valid`, because the scan runs from id 1 up to the counter. No other table can arise from the created one (see `CountriesLaws.ServeFromEmpty` and `CitiesLaws.ServeFromEmpty`).
- Countries.ListPaises: the promise that every row appears is stated only for tables satisfying `Valid`, for the same reason.
- Cities.ListCiudades: the promise that every row appears is stated only for tables satisfying `Valid`, for the same reason.

=== FILE: cities.dfy ===
/** The cities service (api-express-ciudades/src/index.ts): five Express route
    handlers over one `ciudades` table.  Express has already matched the route
    and body-parser has decoded the body, so a request arrives as one of the
    five routes with its id and fields. */
module Cities {
  import opened Wrappers
  import Store

  const NotFoundMessage: string := "Ciudad no encontrada"
  const RequiredMessage: string := "nombre y poblacion son requeridos"
  const DuplicateMessage: string := "La ciudad ya existe"
  const CreateError: string := "Error al crear ciudad"
  const DeletedMessage: string := "Ciudad eliminada correctamente"

  /** The `ciudades` table: the detail column is `poblacion`. */
  type Ciudades = Store.Table<int>

  /** Every stored city has a name other than "" and a population other than
      0, as the handlers check before they write. */
  predicate RowsFilled(t: Ciudades)
  {
    forall k | k in t.rows :: t.rows[k].nombre != "" && t.rows[k].detail != 0
  }

  /** `nombre` and `poblacion` as destructured from `req.body`; None where the
      member is absent. */
  datatype Fields = Fields(nombre: Option<string>, poblacion: Option<int>)

  datatype Request =
    | ListAll                          // GET    /api/ciudades
    | Fetch(id: int)                   // GET    /api/ciudades/:id
    | Create(fields: Fields)           // POST   /api/ciudades
    | Replace(id: int, fields: Fields) // PUT    /api/ciudades/:id
    | Remove(id: int)                  // DELETE /api/ciudades/:id

  datatype Ciudad = Ciudad(id: int, nombre: string, poblacion: int)

  datatype Body =
    | CiudadList(ciudades: seq<Ciudad>)
    | One(ciudad: Ciudad)
    | Error(error: string)
    | Removed(mensaje: string, id: int)

  datatype Response = Response(status: int, body: Body)

  datatype Step = Step(response: Response, after: Ciudades)

  /** `!(!nombre || !poblacion)`: both present, the name not "" and the
      population not 0 (JavaScript's falsy values). */
  predicate Truthy(f: Fields)
  {
    && f.nombre.Some? && f.nombre.value != ""
    && f.poblacion.Some? && f.poblacion.value != 0
  }

  /** A city as the table stores it. */
  function CiudadEntry(c: Ciudad): Store.Entry<int>
  {
    Store.Entry(c.id, Store.Row(c.nombre, c.poblacion))
  }

  /** The list as the GET handler sends it: every row, in ascending id order. */
  ghost predicate ListsTable(cs: seq<Ciudad>, t: Ciudades)
  {
    Store.Lists(Store.Project(cs, CiudadEntry), t)
  }

  function ListCiudades(t: Ciudades): (cs: seq<Ciudad>)
    ensures Store.Valid(t) ==> ListsTable(cs, t)
  {
    var rows := Store.SelectAll(t);
    var cs := seq(|rows|, i requires 0 <= i < |rows| =>
      Ciudad(rows[i].id, rows[i].row.nombre, rows[i].row.detail));
    assert Store.Project(cs, CiudadEntry) == rows;
    cs
  }

  function GetById(id: int, t: Ciudades): (r: Response)
    ensures r.status == 200 <==> id in t.rows
    ensures id in t.rows ==> r.body == One(Ciudad(id, t.rows[id].nombre, t.rows[id].detail))
    ensures id !in t.rows ==> r == Response(404, Error(NotFoundMessage))
  {
    if id in t.rows then Response(200, One(Ciudad(id, t.rows[id].nombre, t.rows[id].detail)))
    else Response(404, Error(NotFoundMessage))
  }

  function Post(f: Fields, t: Ciudades): (s: Step)
    ensures s.response.status in {201, 400, 500}
    ensures s.response.status != 201 ==> s.after == t
    ensures !Truthy(f) ==> s.response == Response(400, Error(RequiredMessage))
    ensures Truthy(f) && t.nextId > Store.MaxRowId ==> s.response == Response(500, Error(CreateError))
    ensures Truthy(f) && t.nextId <= Store.MaxRowId && Store.NameTaken(t.rows, f.nombre.value) ==>
              s.response == Response(400, Error(DuplicateMessage))
    ensures s.response.status == 201 <==>
              Truthy(f) && t.nextId <= Store.MaxRowId && !Store.NameTaken(t.rows, f.nombre.value)
    ensures s.response.status == 201 ==>
              && s.response.body.One?
              && var c := s.response.body.ciudad;
              && c.nombre == f.nombre.value && c.poblacion == f.poblacion.value
              && s.after.rows == t.rows[c.id := Store.Row(c.nombre, c.poblacion)]
              && c.id >= t.nextId
              && (Store.Valid(t) ==> c.id !in t.rows && forall k | k in t.rows :: k < c.id)
    ensures s.after.nextId >= t.nextId
    ensures Store.Valid(t) ==> Store.Valid(s.after)
    ensures RowsFilled(t) ==> RowsFilled(s.after)
  {
    if !Truthy(f) then Step(Response(400, Error(RequiredMessage)), t)
    else
      var nombre, poblacion := f.nombre.value, f.poblacion.value;
      match Store.Insert(t, nombre, poblacion)
      case Ok(ins) => Step(Response(201, One(Ciudad(ins.id, nombre, poblacion))), ins.table)
      case Err(UniqueViolation) => Step(Response(400, Error(DuplicateMessage)), t)
      case Err(Full) => Step(Response(500, Error(CreateError)), t)
  }

  function Put(id: int, f: Fields, t: Ciudades): (s: Step)
    ensures s.response.status in {200, 400, 404}
    ensures s.response.status != 200 ==> s.after == t
    ensures !Truthy(f) ==> s.response == Response(400, Error(RequiredMessage))
    ensures Truthy(f) && id !in t.rows ==> s.response == Response(404, Error(NotFoundMessage))
    ensures Truthy(f) && id in t.rows && Store.NameTakenByOther(t.rows, f.nombre.value, id) ==>
              s.response == Response(400, Error(DuplicateMessage))
    ensures Truthy(f) && id in t.rows && !Store.NameTakenByOther(t.rows, f.nombre.value, id) ==>
              && s.response == Response(200, One(Ciudad(id, f.nombre.value, f.poblacion.value)))
              && s.after.nextId == t.nextId
              && s.after.rows.Keys == t.rows.Keys
              && s.after.rows[id] == Store.Row(f.nombre.value, f.poblacion.value)
              && forall k | k in t.rows && k != id :: s.after.rows[k] == t.rows[k]
    ensures s.after.nextId == t.nextId
    ensures Store.Valid(t) ==> Store.Valid(s.after)
    ensures RowsFilled(t) ==> RowsFilled(s.after)
  {
    if !Truthy(f) then Step(Response(400, Error(RequiredMessage)), t)
    else
      var nombre, poblacion := f.nombre.value, f.poblacion.value;
      match Store.Update(t, id, nombre, poblacion)
      case Err(_) => Step(Response(400, Error(DuplicateMessage)), t)
      case Ok(ch) =>
        if ch.count == 0 then Step(Response(404, Error(NotFoundMessage)), t)
        else Step(Response(200, One(Ciudad(id, nombre, poblacion))), ch.table)
  }

  function DeleteById(id: int, t: Ciudades): (s: Step)
    ensures s.response.status == 200 <==> id in t.rows
    ensures id !in t.rows ==> s == Step(Response(404, Error(NotFoundMessage)), t)
    ensures id in t.rows ==>
              && s.response == Response(200, Removed(DeletedMessage, id))
              && s.after.rows.Keys == t.rows.Keys - {id}
              && (forall k | k in s.after.rows :: s.after.rows[k] == t.rows[k])
              && s.after.nextId == t.nextId
    ensures s.after.nextId == t.nextId
    ensures Store.Valid(t) ==> Store.Valid(s.after)
    ensures RowsFilled(t) ==> RowsFilled(s.after)
  {
    var ch := Store.Delete(t, id);
    if ch.count == 0 then Step(Response(404, Error(NotFoundMessage)), t)
    else Step(Response(200, Removed(DeletedMessage, id)), ch.table)
  }

  /** One request, dispatched to its route handler. */
  function Handle(req: Request, t: Ciudades): (s: Step)
    ensures s.response.status in {200, 201, 400, 404, 500}
    ensures s.response.status !in {200, 201} ==> s.after == t
    ensures req.ListAll? || req.Fetch? ==> s.after == t
    ensures req.ListAll? && Store.Valid(t) ==>
              s.response.status == 200 && s.response.body.CiudadList? && ListsTable(s.response.body.ciudades, t)
    ensures s.after.nextId >= t.nextId
    ensures Store.Valid(t) ==> Store.Valid(s.after)
    ensures RowsFilled(t) ==> RowsFilled(s.after)
  {
    match req
    case ListAll => Step(Response(200, CiudadList(ListCiudades(t))), t)
    case Fetch(id) => Step(GetById(id, t), t)
    case Create(f) => Post(f, t)
    case Replace(id, f) => Put(id, f, t)
    case Remove(id) => DeleteById(id, t)
  }
}

=== FILE: cities_laws.dfy ===
/** Properties of the cities service that relate several requests. */
module CitiesLaws {
  import opened Wrappers
  import Store
  import opened Cities

  /** A city that POST created can be read back at its id. */
  lemma CreateThenRead(t: Ciudades, f: Fields)
    requires Store.Valid(t)
    requires Handle(Create(f), t).response.status == 201
    ensures var s := Handle(Create(f), t);
            && s.response.body.One?
            && Handle(Fetch(s.response.body.ciudad.id), s.after).response
               == Response(200, One(s.response.body.ciudad))
  {
  }

  /** A population of 0 is falsy in JavaScript, so such a city is refused
      before anything is written. */
  lemma ZeroPopulationRejected(t: Ciudades, nombre: Option<string>, id: int)
    ensures Handle(Create(Fields(nombre, Some(0))), t) == Step(Response(400, Error(RequiredMessage)), t)
    ensures Handle(Replace(id, Fields(nombre, Some(0))), t) == Step(Response(400, Error(RequiredMessage)), t)
  {
  }

  /** Deleting a present city removes it: reading it or deleting it again
      then gives 404, and the second delete changes nothing. */
  lemma DeleteThenReadAndDelete(t: Ciudades, id: int)
    requires id in t.rows
    ensures var s := Handle(Remove(id), t);
            && s.response == Response(200, Removed(DeletedMessage, id))
            && Handle(Fetch(id), s.after).response == Response(404, Error(NotFoundMessage))
            && Handle(Remove(id), s.after) == Step(Response(404, Error(NotFoundMessage)), s.after)
  {
  }

  /** A PUT that succeeds is what a later GET sees, under the same id. */
  lemma UpdateThenRead(t: Ciudades, id: int, f: Fields)
    requires Handle(Replace(id, f), t).response.status == 200
    ensures var s := Handle(Replace(id, f), t);
            && id in t.rows
            && |s.after.rows| == |t.rows|
            && Handle(Fetch(id), s.after).response == s.response
  {
    var s := Handle(Replace(id, f), t);
    assert s.after.rows.Keys == t.rows.Keys;
  }

  /** Renaming a city to a name another city holds is answered 400 "La
      ciudad ya existe", and the table keeps its old contents. */
  lemma RenameCollision(t: Ciudades, id: int, other: int, poblacion: int)
    requires id in t.rows && other in t.rows && id != other
    requires t.rows[other].nombre != "" && poblacion != 0
    ensures Handle(Replace(id, Fields(Some(t.rows[other].nombre), Some(poblacion))), t)
            == Step(Response(400, Error(DuplicateMessage)), t)
  {
    assert Store.NameTakenByOther(t.rows, t.rows[other].nombre, id);
  }

  /** The table one request leaves behind. */
  function After(req: Request, t: Ciudades): Ciudades
  {
    Handle(req, t).after
  }

  /** What every reachable table satisfies: the store's invariant, and no
      row with a field the handlers would have refused. */
  predicate Sound(t: Ciudades)
  {
    Store.Valid(t) && RowsFilled(t)
  }

  /** From the freshly created table, any sequence of requests leaves a table
      whose ids lie below the counter, whose names are pairwise distinct and
      whose rows all have their required fields filled. */
  lemma ServeFromEmpty(reqs: seq<Request>)
    ensures Store.Valid(Store.Serve(After, reqs, Store.Empty()))
    ensures RowsFilled(Store.Serve(After, reqs, Store.Empty()))
  {
    forall r, u | Sound(u) ensures Sound(After(r, u)) {
      var s := Handle(r, u);
    }
    Store.ServeKeeps(After, Sound, reqs, Store.Empty());
  }

  /** AUTOINCREMENT never hands a deleted id out again: after the delete and
      any requests that follow, a successful POST gets a larger id. */
  lemma NoIdReuse(t: Ciudades, id: int, reqs: seq<Request>, f: Fields)
    requires Store.Valid(t)
    requires id in t.rows
    ensures var s := Post(f, Store.Serve(After, reqs, After(Remove(id), t)));
            s.response.status == 201 ==> s.response.body.ciudad.id > id
  {
    Store.ServeCounterGrows(After, reqs, After(Remove(id), t));
  }
}

=== FILE: countries.dfy ===
/** The countries service (api-fastapi-paises/main.py): a request handler over
    one `paises` table, routed by raw tests on the path string.  Each HTTP
    method handler is a pure function from the request and the table to the
    response and the table afterwards. */
module Countries {
  import opened Wrappers
  import opened PyStr
  import Store

  const Collection: string := "/api/paises"
  const ItemPrefix: string := "/api/paises/"

  const BannerMessage: string := "API de Países"
  const BannerVersion: string := "1.0.0"
  const NotFoundMessage: string := "País no encontrado"
  const RequiredMessage: string := "nombre y dirigente son requeridos"
  const DuplicateMessage: string := "El país ya existe"
  const DeletedMessage: string := "País eliminado correctamente"

  /** Python ints are unbounded, but sqlite3 binds a parameter only when it
      fits a signed 64-bit integer and raises OverflowError otherwise. */
  predicate FitsInt64(n: int)
  {
    -0x8000_0000_0000_0000 <= n <= 0x7FFF_FFFF_FFFF_FFFF
  }

  /** The `paises` table: the detail column is `dirigente`. */
  type Paises = Store.Table<string>

  /** Every stored country has a non-empty nombre and dirigente, as the
      handlers check before they write. */
  predicate RowsFilled(t: Paises)
  {
    forall k | k in t.rows :: t.rows[k].nombre != "" && t.rows[k].detail != ""
  }

  datatype Method = GET | POST | PUT | DELETE | OPTIONS

  /** What `json.loads` makes of a body that parses: an object (only its
      string-valued members are kept) or any other JSON value. */
  datatype Json = Object(members: map<string, string>) | NonObject

  datatype RawBody = Malformed | Parsed(value: Json)

  /** `path` is `self.path`: the request-target as http.server hands it to the
      handler after parsing the request line. Current CPython collapses a leading
      `//` there, so a client's `//api/paises` arrives as `/api/paises`. */
  datatype Request = Request(verb: Method, path: string, body: RawBody)

  datatype Pais = Pais(id: int, nombre: string, dirigente: string)

  datatype Body =
    | Banner(mensaje: string, version: string)
    | PaisList(paises: seq<Pais>)
    | One(pais: Pais)
    | Error(error: string)
    | Removed(mensaje: string, id: int)
    | ErrorPage   // http.server's send_error page
    | NoBody

  datatype Response = Response(status: int, body: Body)

  /** A handled request: the response sent and the table left behind. */
  datatype Step = Step(response: Response, after: Paises)

  // ---------------------------------------------------------------- routing

  /** `path.startswith('/api/paises/') and path.count('/') == 3` */
  predicate IsItemPath(path: string)
  {
    ItemPrefix <= path && Count(path, '/') == 3
  }

  datatype Route = Root | ListRoute | ItemRoute(segment: string) | Unrouted

  /** The path tests of do_GET, in their order; POST, PUT and DELETE each use
      one of them. */
  function Classify(path: string): (r: Route)
    ensures r == Root <==> path == "/" || path == ""
    ensures r == ListRoute <==> path == Collection
    ensures r.ItemRoute? <==> IsItemPath(path)
    ensures r.ItemRoute? ==> r.segment == LastSegment(path) && r.segment == path[|ItemPrefix|..]
  {
    if path == "/" || path == "" then Root
    else if path == Collection then ListRoute
    else if IsItemPath(path) then
      ItemSegment(path);
      ItemRoute(LastSegment(path))
    else Unrouted
  }

  /** On an item path the last segment is everything after the prefix. */
  lemma ItemSegment(path: string)
    requires IsItemPath(path)
    ensures LastSegment(path) == path[|ItemPrefix|..]
  {
    var rest := path[|ItemPrefix|..];
    assert path == ItemPrefix + rest;
    PrefixSlashes();
    CountConcat(ItemPrefix, rest, '/');
    LastSegmentAfterSlash(ItemPrefix, rest);
  }

  lemma PrefixSlashes()
    ensures Count(ItemPrefix, '/') == 3
  {
  }

  /** How a client names one country: `/api/paises/<id>`. */
  function ItemPath(id: int): string
  {
    ItemPrefix + ShowInt(id)
  }

  lemma ItemPathRoutes(id: int)
    requires StrFits(id)
    ensures IsItemPath(ItemPath(id))
    ensures Classify(ItemPath(id)) == ItemRoute(ShowInt(id))
    ensures LastSegment(ItemPath(id)) == ShowInt(id)
    ensures ParseInt(LastSegment(ItemPath(id))) == Some(id)
  {
    var path := ItemPath(id);
    PrefixSlashes();
    CountConcat(ItemPrefix, ShowInt(id), '/');
    assert IsItemPath(path);
    assert path[|ItemPrefix|..] == ShowInt(id);
    ParseShowInt(id);
  }

  /** Every id SQLite can bind is spelled within the digit limit. */
  lemma Int64StrFits(n: int)
    requires FitsInt64(n)
    ensures StrFits(n)
  {
    assert Pow10(10) == 10_000_000_000;
    assert Pow10(19) == 10_000_000_000_000_000_000;
    ShowNatLength(if n < 0 then -n else n, 19);
  }

  // ------------------------------------------------------------- the body

  /** parse_json_body: a body that does not decode as JSON reads as `{}`. */
  function ParseJsonBody(b: RawBody): (j: Json)
    ensures b.Malformed? ==> j == Object(map[])
    ensures b.Parsed? ==> j == b.value
  {
    match b
    case Malformed => Object(map[])
    case Parsed(v) => v
  }

  /** `data.get(key)` is truthy: present and not the empty string. */
  predicate Filled(m: map<string, string>, key: string)
  {
    key in m && m[key] != ""
  }

  /** The body passes `if not nombre or not dirigente`. */
  predicate HasFields(j: Json)
  {
    j.Object? && Filled(j.members, "nombre") && Filled(j.members, "dirigente")
  }

  // ------------------------------------------------------------- handlers

  /** A country as the table stores it. */
  function PaisEntry(p: Pais): Store.Entry<string>
  {
    Store.Entry(p.id, Store.Row(p.nombre, p.dirigente))
  }

  /** The list as do_GET sends it: every row, in ascending id order. */
  ghost predicate ListsTable(ps: seq<Pais>, t: Paises)
  {
    Store.Lists(Store.Project(ps, PaisEntry), t)
  }

  function ListPaises(t: Paises): (ps: seq<Pais>)
    ensures Store.Valid(t) ==> ListsTable(ps, t)
  {
    var rows := Store.SelectAll(t);
    var ps := seq(|rows|, i requires 0 <= i < |rows| =>
      Pais(rows[i].id, rows[i].row.nombre, rows[i].row.detail));
    assert Store.Project(ps, PaisEntry) == rows;
    ps
  }

  function DoGet(path: string, t: Paises): (r: Response)
    ensures r.status in {200, 404, 500}
    ensures path == "/" || path == "" ==> r == Response(200, Banner(BannerMessage, BannerVersion))
    ensures path == Collection ==> r.status == 200 && r.body.PaisList?
    ensures path == Collection && Store.Valid(t) ==> ListsTable(r.body.paises, t)
    ensures r == Response(404, ErrorPage) <==>
              path != "/" && path != "" && path != Collection && !IsItemPath(path)
    ensures IsItemPath(path) && ParseInt(LastSegment(path)).None? ==> r == Response(500, ErrorPage)
    ensures IsItemPath(path) && ParseInt(LastSegment(path)).Some? ==>
              var id := ParseInt(LastSegment(path)).value;
              && (!FitsInt64(id) ==> r == Response(500, ErrorPage))
              && (FitsInt64(id) && id in t.rows ==>
                    r == Response(200, One(Pais(id, t.rows[id].nombre, t.rows[id].detail))))
              && (FitsInt64(id) && id !in t.rows ==> r == Response(404, Error(NotFoundMessage)))
  {
    match Classify(path)
    case Root => Response(200, Banner(BannerMessage, BannerVersion))
    case ListRoute => Response(200, PaisList(ListPaises(t)))
    case ItemRoute(segment) =>
      (match ParseInt(segment)
       case None => Response(500, ErrorPage)
       case Some(id) => GetItem(id, t))
    case Unrouted => Response(404, ErrorPage)
  }

  /** do_GET of an item once `int()` has read the id: the 64-bit bind, then the SELECT. */
  function GetItem(id: int, t: Paises): Response
  {
    if !FitsInt64(id) then Response(500, ErrorPage)
    else if id in t.rows then Response(200, One(Pais(id, t.rows[id].nombre, t.rows[id].detail)))
    else Response(404, Error(NotFoundMessage))
  }

  function DoPost(path: string, body: RawBody, t: Paises): (s: Step)
    ensures s.response.status in {201, 400, 404, 500}
    ensures s.response.status != 201 ==> s.after == t
    ensures path != Collection ==> s.response == Response(404, ErrorPage)
    ensures path == Collection && ParseJsonBody(body).NonObject? ==> s.response == Response(500, ErrorPage)
    ensures path == Collection && ParseJsonBody(body).Object? && !HasFields(ParseJsonBody(body)) ==>
              s.response == Response(400, Error(RequiredMessage))
    ensures path == Collection && HasFields(ParseJsonBody(body)) && t.nextId <= Store.MaxRowId
              && Store.NameTaken(t.rows, ParseJsonBody(body).members["nombre"]) ==>
              s.response == Response(400, Error(DuplicateMessage))
    ensures path == Collection && HasFields(ParseJsonBody(body)) && t.nextId > Store.MaxRowId ==>
              s.response == Response(500, ErrorPage)
    ensures s.response.status == 201 <==>
              && path == Collection && HasFields(ParseJsonBody(body)) && t.nextId <= Store.MaxRowId
              && !Store.NameTaken(t.rows, ParseJsonBody(body).members["nombre"])
    ensures s.response.status == 201 ==>
              var m := ParseJsonBody(body).members;
              && s.response.body.One?
              && s.response.body.pais.nombre == m["nombre"]
              && s.response.body.pais.dirigente == m["dirigente"]
              && var id := s.response.body.pais.id;
              && s.after.rows == t.rows[id := Store.Row(m["nombre"], m["dirigente"])]
              && id >= t.nextId
              && (Store.Valid(t) ==> id !in t.rows && forall k | k in t.rows :: k < id)
    ensures s.after.nextId >= t.nextId
    ensures Store.Valid(t) ==> Store.Valid(s.after)
    ensures RowsFilled(t) ==> RowsFilled(s.after)
  {
    if path != Collection then Step(Response(404, ErrorPage), t)
    else
      match ParseJsonBody(body)
      case NonObject => Step(Response(500, ErrorPage), t)
      case Object(m) =>
        if !Filled(m, "nombre") || !Filled(m, "dirigente") then
          Step(Response(400, Error(RequiredMessage)), t)
        else
          var nombre, dirigente := m["nombre"], m["dirigente"];
          match Store.Insert(t, nombre, dirigente)
          case Ok(ins) => Step(Response(201, One(Pais(ins.id, nombre, dirigente))), ins.table)
          case Err(UniqueViolation) => Step(Response(400, Error(DuplicateMessage)), t)
          case Err(Full) => Step(Response(500, ErrorPage), t)
  }

  function DoPut(path: string, body: RawBody, t: Paises): (s: Step)
    ensures s.response.status in {200, 400, 404, 500}
    ensures s.response.status != 200 ==> s.after == t
    ensures !IsItemPath(path) ==> s.response == Response(404, ErrorPage)
    ensures IsItemPath(path) && ParseInt(LastSegment(path)).None? ==> s.response == Response(500, ErrorPage)
    ensures IsItemPath(path) && ParseInt(LastSegment(path)).Some? && !HasFields(ParseJsonBody(body))
              && ParseJsonBody(body).Object? ==>
              s.response == Response(400, Error(RequiredMessage))
    ensures IsItemPath(path) && ParseInt(LastSegment(path)).Some? && ParseJsonBody(body).NonObject? ==>
              s.response == Response(500, ErrorPage)
    ensures IsItemPath(path) && ParseInt(LastSegment(path)).Some? && HasFields(ParseJsonBody(body)) ==>
              var id := ParseInt(LastSegment(path)).value;
              var m := ParseJsonBody(body).members;
              && (!FitsInt64(id) ==> s.response == Response(500, ErrorPage))
              && (FitsInt64(id) && id !in t.rows ==> s.response == Response(404, Error(NotFoundMessage)))
              && (FitsInt64(id) && id in t.rows && Store.NameTakenByOther(t.rows, m["nombre"], id) ==>
                    s.response == Response(500, ErrorPage))
              && (FitsInt64(id) && id in t.rows && !Store.NameTakenByOther(t.rows, m["nombre"], id) ==>
                    && s.response == Response(200, One(Pais(id, m["nombre"], m["dirigente"])))
                    && s.after.nextId == t.nextId
                    && s.after.rows.Keys == t.rows.Keys
                    && s.after.rows[id] == Store.Row(m["nombre"], m["dirigente"])
                    && forall k | k in t.rows && k != id :: s.after.rows[k] == t.rows[k])
    ensures s.after.nextId == t.nextId
    ensures Store.Valid(t) ==> Store.Valid(s.after)
    ensures RowsFilled(t) ==> RowsFilled(s.after)
  {
    match Classify(path)
    case ItemRoute(segment) =>
      (match ParseInt(segment)
       case None => Step(Response(500, ErrorPage), t)
       case Some(id) => PutItem(id, body, t))
    case _ => Step(Response(404, ErrorPage), t)
  }

  /** do_PUT once `int()` has read the id: the body checks, then the UPDATE. */
  function PutItem(id: int, body: RawBody, t: Paises): Step
  {
    match ParseJsonBody(body)
    case NonObject => Step(Response(500, ErrorPage), t)
    case Object(m) =>
      if !Filled(m, "nombre") || !Filled(m, "dirigente") then
        Step(Response(400, Error(RequiredMessage)), t)
      else UpdatePais(id, m["nombre"], m["dirigente"], t)
  }

  /** The UPDATE of do_PUT and what it answers: 404 when no row has the id,
      500 when sqlite3 raises (the id does not bind, or the new name is
      another row's). */
  function UpdatePais(id: int, nombre: string, dirigente: string, t: Paises): (s: Step)
    ensures s.response.status in {200, 404, 500}
    ensures s.response.status != 200 ==> s.after == t
    ensures !FitsInt64(id) ==> s.response == Response(500, ErrorPage)
    ensures FitsInt64(id) && id !in t.rows ==> s.response == Response(404, Error(NotFoundMessage))
    ensures FitsInt64(id) && id in t.rows && Store.NameTakenByOther(t.rows, nombre, id) ==>
              s.response == Response(500, ErrorPage)
    ensures FitsInt64(id) && id in t.rows && !Store.NameTakenByOther(t.rows, nombre, id) ==>
              && s.response == Response(200, One(Pais(id, nombre, dirigente)))
              && s.after.nextId == t.nextId
              && s.after.rows.Keys == t.rows.Keys
              && s.after.rows[id] == Store.Row(nombre, dirigente)
              && forall k | k in t.rows && k != id :: s.after.rows[k] == t.rows[k]
    ensures s.after.nextId == t.nextId
    ensures Store.Valid(t) ==> Store.Valid(s.after)
    ensures nombre != "" && dirigente != "" && RowsFilled(t) ==> RowsFilled(s.after)
  {
    if !FitsInt64(id) then Step(Response(500, ErrorPage), t)
    else
      match Store.Update(t, id, nombre, dirigente)
      case Err(_) => Step(Response(500, ErrorPage), t)
      case Ok(ch) =>
        if ch.count == 0 then Step(Response(404, Error(NotFoundMessage)), t)
        else Step(Response(200, One(Pais(id, nombre, dirigente))), ch.table)
  }

  function DoDelete(path: string, t: Paises): (s: Step)
    ensures s.response.status in {200, 404, 500}
    ensures s.response.status != 200 ==> s.after == t
    ensures !IsItemPath(path) ==> s.response == Response(404, ErrorPage)
    ensures IsItemPath(path) && ParseInt(LastSegment(path)).None? ==> s.response == Response(500, ErrorPage)
    ensures IsItemPath(path) && ParseInt(LastSegment(path)).Some? ==>
              var id := ParseInt(LastSegment(path)).value;
              && (!FitsInt64(id) ==> s.response == Response(500, ErrorPage))
              && (FitsInt64(id) && id !in t.rows ==> s.response == Response(404, Error(NotFoundMessage)))
              && (FitsInt64(id) && id in t.rows ==>
                    && s.response == Response(200, Removed(DeletedMessage, id))
                    && s.after.rows.Keys == t.rows.Keys - {id}
                    && (forall k | k in s.after.rows :: s.after.rows[k] == t.rows[k])
                    && s.after.nextId == t.nextId)
    ensures s.after.nextId == t.nextId
    ensures Store.Valid(t) ==> Store.Valid(s.after)
    ensures RowsFilled(t) ==> RowsFilled(s.after)
  {
    match Classify(path)
    case ItemRoute(segment) =>
      (match ParseInt(segment)
       case None => Step(Response(500, ErrorPage), t)
       case Some(id) => DeleteItem(id, t))
    case _ => Step(Response(404, ErrorPage), t)
  }

  /** do_DELETE once `int()` has read the id: the 64-bit bind, then the DELETE. */
  function DeleteItem(id: int, t: Paises): Step
  {
    if !FitsInt64(id) then Step(Response(500, ErrorPage), t)
    else
      var ch := Store.Delete(t, id);
      if ch.count == 0 then Step(Response(404, Error(NotFoundMessage)), t)
      else Step(Response(200, Removed(DeletedMessage, id)), ch.table)
  }

  /** One request, dispatched on its method as BaseHTTPRequestHandler does. */
  function Handle(req: Request, t: Paises): (s: Step)
    ensures s.response.status in {200, 201, 400, 404, 500}
    ensures s.response.status !in {200, 201} ==> s.after == t
    ensures req.verb in {GET, OPTIONS} ==> s.after == t
    ensures req.verb == OPTIONS ==> s.response == Response(200, NoBody)
    ensures s.after.nextId >= t.nextId
    ensures Store.Valid(t) ==> Store.Valid(s.after)
    ensures RowsFilled(t) ==> RowsFilled(s.after)
  {
    match req.verb
    case GET => Step(DoGet(req.path, t), t)
    case POST => DoPost(req.path, req.body, t)
    case PUT => DoPut(req.path, req.body, t)
    case DELETE => DoDelete(req.path, t)
    case OPTIONS => Step(Response(200, NoBody), t)
  }
}

=== FILE: countries_laws.dfy ===
/** Properties of the countries service that relate several requests. */
module CountriesLaws {
  import opened PyStr
  import Store
  import opened Countries

  /** An unfolding helper for the laws below: Handle passes each method to its
      handler. Stated once, it spares every law the cost of unfolding Handle. */
  lemma Dispatch(verb: Method, path: string, body: RawBody, t: Paises)
    ensures verb == GET ==> Handle(Request(verb, path, body), t) == Step(DoGet(path, t), t)
    ensures verb == POST ==> Handle(Request(verb, path, body), t) == DoPost(path, body, t)
    ensures verb == PUT ==> Handle(Request(verb, path, body), t) == DoPut(path, body, t)
    ensures verb == DELETE ==> Handle(Request(verb, path, body), t) == DoDelete(path, t)
  {
  }

  /** A country that POST created can be read back at its id. */
  lemma CreateThenRead(t: Paises, path: string, body: RawBody, readBody: RawBody)
    requires Store.Valid(t)
    requires Handle(Request(POST, path, body), t).response.status == 201
    ensures var s := Handle(Request(POST, path, body), t);
            && s.response.body.One?
            && Handle(Request(GET, ItemPath(s.response.body.pais.id), readBody), s.after).response
               == Response(200, One(s.response.body.pais))
  {
    var s := Handle(Request(POST, path, body), t);
    var p := s.response.body.pais;
    Int64StrFits(p.id);
    ItemPathRoutes(p.id);
    assert p.id in s.after.rows;
    Dispatch(GET, ItemPath(p.id), readBody, s.after);
  }

  /** Deleting a present country removes it: reading it or deleting it again
      then gives 404, and the second delete changes nothing. */
  lemma DeleteThenReadAndDelete(t: Paises, id: int, b1: RawBody, b2: RawBody, b3: RawBody)
    requires Store.Valid(t)
    requires id in t.rows
    ensures var s := Handle(Request(DELETE, ItemPath(id), b1), t);
            && s.response == Response(200, Removed(DeletedMessage, id))
            && s.after.rows.Keys == t.rows.Keys - {id}
            && Handle(Request(GET, ItemPath(id), b2), s.after).response == Response(404, Error(NotFoundMessage))
            && Handle(Request(DELETE, ItemPath(id), b3), s.after) == Step(Response(404, Error(NotFoundMessage)), s.after)
  {
    Int64StrFits(id);
    ItemPathRoutes(id);
    var path := ItemPath(id);
    Dispatch(DELETE, path, b1, t);
    var s := DoDelete(path, t);
    assert id !in s.after.rows;
    Dispatch(GET, path, b2, s.after);
    Dispatch(DELETE, path, b3, s.after);
  }

  /** A PUT that succeeds is what a later GET sees, under the same id. */
  lemma UpdateThenRead(t: Paises, id: int, body: RawBody, readBody: RawBody)
    requires Store.Valid(t)
    requires id in t.rows
    requires HasFields(ParseJsonBody(body))
    requires !Store.NameTakenByOther(t.rows, ParseJsonBody(body).members["nombre"], id)
    ensures var m := ParseJsonBody(body).members;
            var s := Handle(Request(PUT, ItemPath(id), body), t);
            && s.response == Response(200, One(Pais(id, m["nombre"], m["dirigente"])))
            && |s.after.rows| == |t.rows|
            && Handle(Request(GET, ItemPath(id), readBody), s.after).response == s.response
  {
    Int64StrFits(id);
    ItemPathRoutes(id);
    var path := ItemPath(id);
    Dispatch(PUT, path, body, t);
    var s := DoPut(path, body, t);
    assert s.after.rows.Keys == t.rows.Keys;
    Dispatch(GET, path, readBody, s.after);
  }

  /** A PUT naming an id with no row answers 404 and inserts nothing. */
  lemma UpdateAbsentInsertsNothing(t: Paises, id: int, body: RawBody)
    requires id !in t.rows && FitsInt64(id)
    requires HasFields(ParseJsonBody(body))
    ensures Handle(Request(PUT, ItemPath(id), body), t) == Step(Response(404, Error(NotFoundMessage)), t)
  {
    Int64StrFits(id);
    ItemPathRoutes(id);
    var path := ItemPath(id);
    Dispatch(PUT, path, body, t);
  }

  /** An item path whose last segment int() rejects is a server error for
      GET, PUT and DELETE alike, whatever the body, and changes nothing. */
  lemma UnparsedIdIsServerError(verb: Method, path: string, body: RawBody, t: Paises)
    requires verb in {GET, PUT, DELETE}
    requires IsItemPath(path)
    ensures ParseInt(LastSegment(path)).None? ==>
              Handle(Request(verb, path, body), t) == Step(Response(500, ErrorPage), t)
  {
    Dispatch(verb, path, body, t);
  }

  /** The handlers read an item segment only through `int()`: two item
      paths whose segments `int()` reads as the same id (`/api/paises/007`
      and `/api/paises/7`, say) get the same answer and leave the same table. */
  lemma SameIdSameAnswer(verb: Method, p1: string, p2: string, body: RawBody, t: Paises)
    requires verb in {GET, PUT, DELETE}
    requires IsItemPath(p1) && IsItemPath(p2)
    ensures ParseInt(LastSegment(p1)) == ParseInt(LastSegment(p2)) ==>
              Handle(Request(verb, p1, body), t) == Handle(Request(verb, p2, body), t)
  {
    Dispatch(verb, p1, body, t);
    Dispatch(verb, p2, body, t);
    match verb
    case GET => SameIdGet(p1, p2, t);
    case PUT => SameIdPut(p1, p2, body, t);
    case DELETE => SameIdDelete(p1, p2, t);
  }

  lemma SameIdGet(p1: string, p2: string, t: Paises)
    requires IsItemPath(p1) && IsItemPath(p2)
    ensures ParseInt(LastSegment(p1)) == ParseInt(LastSegment(p2)) ==> DoGet(p1, t) == DoGet(p2, t)
  {
    GetById(p1, t);
    GetById(p2, t);
  }

  /** DoGet on an item path depends on the path only through the id int() reads. */
  lemma GetById(p: string, t: Paises)
    requires IsItemPath(p)
    ensures DoGet(p, t) ==
              match ParseInt(LastSegment(p))
              case None => Response(500, ErrorPage)
              case Some(id) => GetItem(id, t)
  {
    assert Classify(p) == ItemRoute(LastSegment(p));
  }

  lemma SameIdPut(p1: string, p2: string, body: RawBody, t: Paises)
    requires IsItemPath(p1) && IsItemPath(p2)
    ensures ParseInt(LastSegment(p1)) == ParseInt(LastSegment(p2)) ==> DoPut(p1, body, t) == DoPut(p2, body, t)
  {
    PutById(p1, body, t);
    PutById(p2, body, t);
  }

  /** DoPut on an item path depends on the path only through the id int() reads. */
  lemma PutById(p: string, body: RawBody, t: Paises)
    requires IsItemPath(p)
    ensures DoPut(p, body, t) ==
              match ParseInt(LastSegment(p))
              case None => Step(Response(500, ErrorPage), t)
              case Some(id) => PutItem(id, body, t)
  {
    assert Classify(p) == ItemRoute(LastSegment(p));
  }

  lemma SameIdDelete(p1: string, p2: string, t: Paises)
    requires IsItemPath(p1) && IsItemPath(p2)
    ensures ParseInt(LastSegment(p1)) == ParseInt(LastSegment(p2)) ==> DoDelete(p1, t) == DoDelete(p2, t)
  {
    DeleteById(p1, t);
    DeleteById(p2, t);
  }

  /** DoDelete on an item path depends on the path only through the id int() reads. */
  lemma DeleteById(p: string, t: Paises)
    requires IsItemPath(p)
    ensures DoDelete(p, t) ==
              match ParseInt(LastSegment(p))
              case None => Step(Response(500, ErrorPage), t)
              case Some(id) => DeleteItem(id, t)
  {
    assert Classify(p) == ItemRoute(LastSegment(p));
  }

  /** `/api/paises/` is an item path whose empty last segment int() rejects:
      GET, PUT and DELETE answer 500, not 404, whatever the body. */
  lemma EmptySegmentIsServerError(verb: Method, body: RawBody, t: Paises)
    requires verb in {GET, PUT, DELETE}
    ensures Handle(Request(verb, ItemPrefix, body), t) == Step(Response(500, ErrorPage), t)
  {
    BarePrefixRoute();
    UnparsedIdIsServerError(verb, ItemPrefix, body, t);
  }

  lemma BarePrefixRoute()
    ensures IsItemPath(ItemPrefix)
    ensures ParseInt(LastSegment(ItemPrefix)).None?
  {
    PrefixSlashes();
    assert LastSegment(ItemPrefix) == "";
  }

  /** A POST body that is not JSON reads as `{}`: 400, table unchanged. */
  lemma MalformedPostRejected(t: Paises)
    ensures Handle(Request(POST, Collection, Malformed), t) == Step(Response(400, Error(RequiredMessage)), t)
  {
    assert !Filled(map[], "nombre");
  }

  /** The table one request leaves behind. */
  function After(req: Request, t: Paises): Paises
  {
    Handle(req, t).after
  }

  /** What every reachable table satisfies: the store's invariant, and no
      row with a field the handlers would have refused. */
  predicate Sound(t: Paises)
  {
    Store.Valid(t) && RowsFilled(t)
  }

  /** From the freshly created table, any sequence of requests leaves a table
      whose ids lie below the counter, whose names are pairwise distinct and
      whose rows all have their required fields filled. */
  lemma ServeFromEmpty(reqs: seq<Request>)
    ensures Store.Valid(Store.Serve(After, reqs, Store.Empty()))
    ensures RowsFilled(Store.Serve(After, reqs, Store.Empty()))
  {
    forall r, u | Sound(u) ensures Sound(After(r, u)) {
      var s := Handle(r, u);
    }
    Store.ServeKeeps(After, Sound, reqs, Store.Empty());
  }

  /** AUTOINCREMENT never hands a deleted id out again: after the delete and
      any requests that follow, a successful POST gets a larger id. */
  lemma NoIdReuse(t: Paises, id: int, b: RawBody, reqs: seq<Request>, path: string, body: RawBody)
    requires Store.Valid(t)
    requires id in t.rows
    ensures var s := DoPost(path, body, Store.Serve(After, reqs, After(Request(DELETE, ItemPath(id), b), t)));
            s.response.status == 201 ==> s.response.body.pais.id > id
  {
    var t1 := After(Request(DELETE, ItemPath(id), b), t);
    Store.ServeCounterGrows(After, reqs, t1);
  }
}

=== FILE: pystr.dfy ===
/** The few Python built-ins the countries handler applies to the request
    path: `str.count` of one character, `str.split('/')[-1]`, `int()` on the
    last segment, and `str()` of an int (how a client spells an id in a URL). */
module PyStr {
  import opened Wrappers

  /** `s.count(c)` for a one-character `c`. */
  function Count(s: string, c: char): (n: nat)
    ensures n <= |s|
    ensures n == 0 <==> c !in s
  {
    if |s| == 0 then 0 else (if s[0] == c then 1 else 0) + Count(s[1..], c)
  }

  /** The count is the number of occurrences of `c` in `s`. */
  lemma {:induction false} CountOccurrences(s: string, c: char)
    ensures Count(s, c) == multiset(s)[c]
    decreases |s|
  {
    if |s| > 0 {
      assert s == [s[0]] + s[1..];
      CountOccurrences(s[1..], c);
    }
  }

  lemma {:induction false} CountConcat(a: string, b: string, c: char)
    ensures Count(a + b, c) == Count(a, c) + Count(b, c)
    decreases |a|
  {
    if |a| == 0 {
      assert a + b == b;
    } else {
      assert (a + b)[1..] == a[1..] + b;
      CountConcat(a[1..], b, c);
    }
  }

  /** `s.split('/')[-1]`: the text after the last '/', or all of `s` when it
      has none. */
  function LastSegment(s: string): (r: string)
    ensures '/' !in r
    ensures |r| <= |s| && r == s[|s| - |r|..]
    ensures |r| < |s| ==> s[|s| - |r| - 1] == '/'
  {
    if |s| == 0 || s[|s| - 1] == '/' then ""
    else LastSegment(s[..|s| - 1]) + [s[|s| - 1]]
  }

  /** Whatever follows a prefix ending in '/' is the last segment, provided it
      holds no '/' itself. */
  lemma {:induction false} LastSegmentAfterSlash(p: string, r: string)
    requires |p| > 0 && p[|p| - 1] == '/'
    requires '/' !in r
    ensures LastSegment(p + r) == r
    decreases |r|
  {
    if |r| == 0 {
      assert p + r == p;
    } else {
      var init := r[..|r| - 1];
      assert (p + r)[..|p + r| - 1] == p + init;
      assert r[|r| - 1] in r;
      LastSegmentAfterSlash(p, init);
      assert r == init + [r[|r| - 1]];
    }
  }

  predicate IsDigit(c: char)
  {
    '0' <= c <= '9'
  }

  function DigitValue(c: char): nat
  {
    if IsDigit(c) then (c as int) - ('0' as int) else 0
  }

  function Digit(d: nat): (c: char)
    requires d < 10
    ensures IsDigit(c) && DigitValue(c) == d
  {
    (('0' as int) + d) as char
  }

  /** The digits `int()` accepts after an optional sign: ASCII digits, where
      a single '_' may separate two digits. */
  predicate Numeral(s: string)
  {
    && |s| > 0
    && IsDigit(s[0])
    && IsDigit(s[|s| - 1])
    && (forall i | 0 <= i < |s| :: IsDigit(s[i]) || s[i] == '_')
    && (forall i | 0 <= i < |s| - 1 :: s[i] == '_' ==> IsDigit(s[i + 1]))
  }

  /** The decimal value of a numeral read left to right, underscores skipped. */
  function NumeralValue(s: string): nat
  {
    if |s| == 0 then 0
    else if s[|s| - 1] == '_' then NumeralValue(s[..|s| - 1])
    else 10 * NumeralValue(s[..|s| - 1]) + DigitValue(s[|s| - 1])
  }

  /** CPython's default limit on the number of decimal digits `int()` reads
      and `str()` writes (sys.int_info.default_max_str_digits, from 3.11 and its backports). */
  const MaxStrDigits: nat := 4300

  /** The digit characters of a numeral, underscores not counted. */
  function DigitCount(s: string): nat
  {
    |s| - Count(s, '_')
  }

  /** A numeral `int()` accepts: well formed, and within the digit limit. */
  predicate Accepted(s: string)
  {
    Numeral(s) && DigitCount(s) <= MaxStrDigits
  }

  /** `s` without its sign character, if it has one. */
  function Unsigned(s: string): string
  {
    if |s| > 0 && s[0] in "+-" then s[1..] else s
  }

  /** `int(s)` on the text of one path segment; None where Python raises
      ValueError. */
  function ParseInt(s: string): (r: Option<int>)
    ensures r.Some? ==> |s| > 0 && forall i | 0 <= i < |s| :: s[i] in "+-_0123456789"
    ensures r.Some? <==> Accepted(Unsigned(s))
    ensures r.Some? ==> DigitCount(Unsigned(s)) <= MaxStrDigits
    ensures r.Some? && s[0] != '-' ==> r.value >= 0
    ensures r.Some? && s[0] == '-' ==> r.value <= 0
  {
    if |s| > 0 && s[0] == '-' && Accepted(s[1..]) then Some(0 - NumeralValue(s[1..]))
    else if |s| > 0 && s[0] == '+' && Accepted(s[1..]) then Some(NumeralValue(s[1..]))
    else if Accepted(s) then Some(NumeralValue(s))
    else None
  }

  /** `str(n)` for n >= 0. */
  function ShowNat(n: nat): (s: string)
    ensures |s| > 0
    ensures forall i | 0 <= i < |s| :: IsDigit(s[i])
  {
    if n < 10 then [Digit(n)] else ShowNat(n / 10) + [Digit(n % 10)]
  }

  /** `str(n)`. */
  function ShowInt(n: int): (s: string)
    ensures |s| > 0 && '/' !in s
  {
    if n < 0 then "-" + ShowNat(-n) else ShowNat(n)
  }

  /** `str(n)` does not exceed the digit limit (CPython raises otherwise). */
  predicate StrFits(n: int)
  {
    |ShowNat(if n < 0 then -n else n)| <= MaxStrDigits
  }

  /** 10^k, the bound `ShowNatLength` measures spellings against. */
  function Pow10(k: nat): nat
  {
    if k == 0 then 1 else 10 * Pow10(k - 1)
  }

  /** A number below 10^k is spelled with at most k digits. */
  lemma {:induction false} ShowNatLength(n: nat, k: nat)
    requires 1 <= k && n < Pow10(k)
    ensures |ShowNat(n)| <= k
    decreases k
  {
    if n >= 10 {
      assert k != 1;
      assert n / 10 < Pow10(k - 1);
      ShowNatLength(n / 10, k - 1);
    }
  }

  lemma {:induction false} ShowNatValue(n: nat)
    ensures Numeral(ShowNat(n))
    ensures NumeralValue(ShowNat(n)) == n
  {
    var s := ShowNat(n);
    if n >= 10 {
      ShowNatValue(n / 10);
      assert s[..|s| - 1] == ShowNat(n / 10);
    }
  }

  /** `int(str(n)) == n`, for every n whose `str` CPython produces. */
  lemma ParseShowInt(n: int)
    requires StrFits(n)
    ensures ParseInt(ShowInt(n)) == Some(n)
  {
    var s := ShowInt(n);
    var digits := ShowNat(if n < 0 then -n else n);
    ShowNatValue(if n < 0 then -n else n);
    assert '_' !in digits;
    assert DigitCount(digits) == |digits|;
    if n < 0 {
      assert s[0] == '-' && s[1..] == digits;
    } else {
      assert IsDigit(s[0]);
    }
  }

  // ------------------------------------------------- the value int() reads

  /** The digit characters of `s`, underscores removed. */
  function Digits(s: string): string
  {
    if |s| == 0 then []
    else if s[|s| - 1] == '_' then Digits(s[..|s| - 1])
    else Digits(s[..|s| - 1]) + [s[|s| - 1]]
  }

  /** A digit string without its leading zeros, keeping at least one digit. */
  function StripZeros(d: string): string
  {
    if |d| > 1 && d[0] == '0' then StripZeros(d[1..]) else d
  }

  /** The canonical spelling of a numeral: what `str(int(s))` gives back. */
  function Canonical(s: string): string
  {
    StripZeros(Digits(s))
  }

  predicate AllDigits(d: string)
  {
    forall i | 0 <= i < |d| :: IsDigit(d[i])
  }

  predicate AllZeros(d: string)
  {
    forall i | 0 <= i < |d| :: d[i] == '0'
  }

  /** Underscores do not change the value, and a numeral has at least one
      digit left once they are removed. */
  lemma {:induction false} DigitsValue(s: string)
    requires forall i | 0 <= i < |s| :: IsDigit(s[i]) || s[i] == '_'
    ensures NumeralValue(Digits(s)) == NumeralValue(s)
    ensures AllDigits(Digits(s))
    ensures |s| > 0 && IsDigit(s[|s| - 1]) ==> |Digits(s)| > 0
    decreases |s|
  {
    if |s| > 0 {
      var init := s[..|s| - 1];
      DigitsValue(init);
      if s[|s| - 1] != '_' {
        var d := Digits(init) + [s[|s| - 1]];
        assert d[..|d| - 1] == Digits(init);
      }
    }
  }

  /** A digit string reads as zero exactly when every digit is '0'. */
  lemma {:induction false} ZeroValue(d: string)
    requires AllDigits(d)
    ensures NumeralValue(d) == 0 <==> AllZeros(d)
    decreases |d|
  {
    if |d| > 0 {
      var init := d[..|d| - 1];
      ZeroValue(init);
      if AllZeros(d) {
        assert AllZeros(init);
      }
    }
  }

  /** Leading zeros of a digit string followed by one more digit. */
  lemma {:induction false} StripZerosSnoc(d: string, c: char)
    requires |d| > 0 && AllDigits(d)
    ensures AllZeros(d) ==> StripZeros(d + [c]) == [c]
    ensures !AllZeros(d) ==> StripZeros(d + [c]) == StripZeros(d) + [c]
    decreases |d|
  {
    assert (d + [c])[0] == d[0];
    if |d| > 1 {
      assert (d + [c])[1..] == d[1..] + [c];
      StripZerosSnoc(d[1..], c);
      if d[0] == '0' {
        assert AllZeros(d) <==> AllZeros(d[1..]);
      }
    } else {
      assert (d + [c])[1..] == [c];
    }
  }

  /** `str()` of a digit string's value is that string without its leading
      zeros. */
  lemma {:induction false} ShowNumeralValue(d: string)
    requires |d| > 0 && AllDigits(d)
    ensures ShowNat(NumeralValue(d)) == StripZeros(d)
    decreases |d|
  {
    var c := d[|d| - 1];
    if |d| == 1 {
      assert Digit(DigitValue(c)) == c;
    } else {
      var init := d[..|d| - 1];
      assert d == init + [c];
      ZeroValue(init);
      StripZerosSnoc(init, c);
      assert Digit(DigitValue(c)) == c;
      var n := NumeralValue(d);
      if NumeralValue(init) != 0 {
        ShowNumeralValue(init);
        assert n / 10 == NumeralValue(init) && n % 10 == DigitValue(c);
      }
    }
  }

  /** The value `int(s)` returns: its magnitude is spelled by the canonical
      form of the unsigned text, and its sign is the text's. */
  lemma ParseIntValue(s: string)
    ensures ParseInt(s).Some? ==>
              var v := ParseInt(s).value;
              ShowNat(if v < 0 then -v else v) == Canonical(Unsigned(s))
  {
    if ParseInt(s).Some? {
      var u := Unsigned(s);
      DigitsValue(u);
      ShowNumeralValue(Digits(u));
    }
  }
}

=== FILE: store.dfy ===
/** The abstract state behind both services: one SQLite table of the shape

      id INTEGER PRIMARY KEY AUTOINCREMENT, nombre TEXT NOT NULL UNIQUE, <detail> NOT NULL

    kept as a map from id to row plus the AUTOINCREMENT counter.  The detail
    column is `dirigente` (text) for countries and `poblacion` (integer) for
    cities, so the table is generic in it.  Each statement the services run
    (INSERT, UPDATE ... WHERE id, DELETE ... WHERE id, SELECT ... ORDER BY id)
    is one function here. */
module Store {
  import opened Wrappers

  /** The largest rowid SQLite hands out: rowids are signed 64-bit integers. */
  const MaxRowId: int := 0x7FFF_FFFF_FFFF_FFFF

  datatype Row<D> = Row(nombre: string, detail: D)

  /** `nextId` is one more than the largest id ever assigned (the table's
      entry in sqlite_sequence, plus one); it never goes down, so a deleted
      id is never handed out again. */
  datatype Table<D> = Table(rows: map<int, Row<D>>, nextId: int)

  /** A row as SELECT returns it. */
  datatype Entry<D> = Entry(id: int, row: Row<D>)

  datatype StoreError =
    | UniqueViolation   // the UNIQUE constraint on nombre failed
    | Full              // the AUTOINCREMENT counter reached the largest rowid

  /** Outcome of a successful INSERT: the rowid it assigned, and the new table. */
  datatype Inserted<D> = Inserted(id: int, table: Table<D>)

  /** Outcome of a successful UPDATE or DELETE: the number of rows it changed. */
  datatype Changed<D> = Changed(count: nat, table: Table<D>)

  predicate NameTaken<D>(rows: map<int, Row<D>>, nombre: string)
  {
    exists k | k in rows :: rows[k].nombre == nombre
  }

  predicate NameTakenByOther<D>(rows: map<int, Row<D>>, nombre: string, id: int)
  {
    exists k | k in rows && k != id :: rows[k].nombre == nombre
  }

  predicate NamesUnique<D>(rows: map<int, Row<D>>)
  {
    forall i, j | i in rows && j in rows && i != j :: rows[i].nombre != rows[j].nombre
  }

  /** The invariant the database keeps: every id lies between 1 and the
      counter, the counter fits a rowid, and no two rows share a name. */
  predicate Valid<D>(t: Table<D>)
  {
    && 1 <= t.nextId <= MaxRowId + 1
    && (forall k | k in t.rows :: 1 <= k < t.nextId)
    && NamesUnique(t.rows)
  }

  /** The table as CREATE TABLE IF NOT EXISTS leaves it on a fresh database. */
  function Empty<D>(): (t: Table<D>)
    ensures Valid(t)
    ensures |t.rows| == 0
  {
    Table(map[], 1)
  }

  /** INSERT INTO t (nombre, detail) VALUES (?, ?).  SQLite allocates the new
      rowid before it checks constraints, so an exhausted counter is reported
      even when the name is also taken. */
  function Insert<D>(t: Table<D>, nombre: string, detail: D): (r: Result<Inserted<D>, StoreError>)
    ensures r == Err(Full) <==> t.nextId > MaxRowId
    ensures r == Err(UniqueViolation) <==> t.nextId <= MaxRowId && NameTaken(t.rows, nombre)
    ensures r.Ok? ==> t.nextId <= r.value.id < r.value.table.nextId
    ensures Valid(t) && r.Ok? ==>
      && Valid(r.value.table)
      && 1 <= r.value.id <= MaxRowId
      && (forall k | k in t.rows :: k < r.value.id)
      && r.value.table.rows == t.rows[r.value.id := Row(nombre, detail)]
      && |r.value.table.rows| == |t.rows| + 1
  {
    if t.nextId > MaxRowId then Err(Full)
    else if NameTaken(t.rows, nombre) then Err(UniqueViolation)
    else
      var id := t.nextId;
      Ok(Inserted(id, Table(t.rows[id := Row(nombre, detail)], id + 1)))
  }

  /** UPDATE t SET nombre = ?, detail = ? WHERE id = ?.  No row matches an
      absent id, so nothing changes and no constraint can fail; a present
      row taking another row's name violates UNIQUE. */
  function Update<D>(t: Table<D>, id: int, nombre: string, detail: D): (r: Result<Changed<D>, StoreError>)
    ensures r.Err? <==> id in t.rows && NameTakenByOther(t.rows, nombre, id)
    ensures r.Err? ==> r.error == UniqueViolation
    ensures r.Ok? ==> r.value.count <= 1 && (r.value.count == 1 <==> id in t.rows)
    ensures r.Ok? && id !in t.rows ==> r.value.table == t
    ensures r.Ok? && id in t.rows ==>
      && r.value.table.nextId == t.nextId
      && r.value.table.rows.Keys == t.rows.Keys
      && r.value.table.rows[id] == Row(nombre, detail)
      && (forall k | k in t.rows && k != id :: r.value.table.rows[k] == t.rows[k])
    ensures Valid(t) && r.Ok? ==> Valid(r.value.table)
  {
    if id !in t.rows then Ok(Changed(0, t))
    else if NameTakenByOther(t.rows, nombre, id) then Err(UniqueViolation)
    else Ok(Changed(1, t.(rows := t.rows[id := Row(nombre, detail)])))
  }

  /** DELETE FROM t WHERE id = ?.  The counter is left alone. */
  function Delete<D>(t: Table<D>, id: int): (r: Changed<D>)
    ensures r.count <= 1 && (r.count == 1 <==> id in t.rows)
    ensures id !in r.table.rows
    ensures r.table.rows.Keys == t.rows.Keys - {id}
    ensures forall k | k in r.table.rows :: r.table.rows[k] == t.rows[k]
    ensures r.table.nextId == t.nextId
    ensures Valid(t) ==> Valid(r.table)
  {
    if id in t.rows then Changed(1, t.(rows := t.rows - {id})) else Changed(0, t)
  }

  /** The ids of `rows` in [lo, hi), in ascending order: a walk of the rowid
      B-tree over that range. */
  function Scan<D>(rows: map<int, Row<D>>, lo: int, hi: int): (ids: seq<int>)
    decreases hi - lo
    ensures forall i | 0 <= i < |ids| :: ids[i] in rows && lo <= ids[i] < hi
    ensures forall i, j | 0 <= i < j < |ids| :: ids[i] < ids[j]
    ensures forall k | k in rows && lo <= k < hi :: k in ids
  {
    if hi <= lo then []
    else (if lo in rows then [lo] else []) + Scan(rows, lo + 1, hi)
  }

  /** `es` lists the table: each entry is a stored row under its id, ids
      strictly ascend, and every row of the table appears. */
  ghost predicate Lists<D>(es: seq<Entry<D>>, t: Table<D>)
  {
    && (forall i | 0 <= i < |es| :: es[i].id in t.rows && t.rows[es[i].id] == es[i].row)
    && (forall i, j | 0 <= i < j < |es| :: es[i].id < es[j].id)
    && (forall k | k in t.rows :: exists i | 0 <= i < |es| :: es[i].id == k)
  }

  /** A service's own records, read back as table entries. */
  function Project<X, D>(xs: seq<X>, entry: X -> Entry<D>): (es: seq<Entry<D>>)
    ensures |es| == |xs|
    ensures forall i | 0 <= i < |xs| :: es[i] == entry(xs[i])
  {
    seq(|xs|, i requires 0 <= i < |xs| => entry(xs[i]))
  }

  /** SELECT id, nombre, detail FROM t ORDER BY id. */
  function SelectAll<D>(t: Table<D>): (r: seq<Entry<D>>)
    ensures forall i | 0 <= i < |r| :: r[i].id in t.rows && t.rows[r[i].id] == r[i].row
    ensures forall i, j | 0 <= i < j < |r| :: r[i].id < r[j].id
    ensures Valid(t) ==> Lists(r, t)
  {
    var ids := Scan(t.rows, 1, t.nextId);
    var r := seq(|ids|, i requires 0 <= i < |ids| => Entry(ids[i], t.rows[ids[i]]));
    EntriesOfIds(t, ids, r);
    r
  }

  lemma EntriesOfIds<D>(t: Table<D>, ids: seq<int>, r: seq<Entry<D>>)
    requires forall i | 0 <= i < |ids| :: ids[i] in t.rows
    requires forall i, j | 0 <= i < j < |ids| :: ids[i] < ids[j]
    requires forall k | k in t.rows && 1 <= k < t.nextId :: k in ids
    requires |r| == |ids|
    requires forall i | 0 <= i < |r| :: r[i] == Entry(ids[i], t.rows[ids[i]])
    ensures forall i | 0 <= i < |r| :: r[i].id in t.rows && t.rows[r[i].id] == r[i].row
    ensures forall i, j | 0 <= i < j < |r| :: r[i].id < r[j].id
    ensures Valid(t) ==> Lists(r, t)
  {
    forall i, j | 0 <= i < j < |r| ensures r[i].id < r[j].id {
      assert r[i].id == ids[i] && r[j].id == ids[j];
    }
    if Valid(t) {
      forall k | k in t.rows ensures exists i | 0 <= i < |r| :: r[i].id == k {
        assert k in ids;
        var i :| 0 <= i < |ids| && ids[i] == k;
        assert r[i].id == k;
      }
    }
  }

  /** The table after a sequence of requests, each applied by `step` to the
      table the previous one left. */
  function Serve<R, D>(step: (R, Table<D>) -> Table<D>, reqs: seq<R>, t: Table<D>): Table<D>
    decreases |reqs|
  {
    if |reqs| == 0 then t else Serve(step, reqs[1..], step(reqs[0], t))
  }

  /** A request handler that keeps an invariant of the table keeps it over
      any sequence of requests. */
  lemma {:induction false} ServeKeeps<R, D>(step: (R, Table<D>) -> Table<D>, inv: Table<D> -> bool,
                                            reqs: seq<R>, t: Table<D>)
    requires forall r, u | inv(u) :: inv(step(r, u))
    requires inv(t)
    ensures inv(Serve(step, reqs, t))
    decreases |reqs|
  {
    if |reqs| > 0 {
      ServeKeeps(step, inv, reqs[1..], step(reqs[0], t));
    }
  }

  /** A request handler that never lowers the counter never lowers it over any
      sequence, so no id is handed out twice. */
  lemma {:induction false} ServeCounterGrows<R, D>(step: (R, Table<D>) -> Table<D>, reqs: seq<R>, t: Table<D>)
    requires forall r, u :: step(r, u).nextId >= u.nextId
    ensures Serve(step, reqs, t).nextId >= t.nextId
    decreases |reqs|
  {
    if |reqs| > 0 {
      ServeCounterGrows(step, reqs[1..], step(reqs[0], t));
    }
  }
}

=== FILE: wrappers.dfy ===
/** Failure-carrying values used across the model: an optional value and a
    result that is either a value or an error. */
module Wrappers {

  datatype Option<+T> = None | Some(value: T)

  datatype Result<+T, +E> = Ok(value: T) | Err(error: E)
}
